=== FILE: README.md ===
# Command dispatch in tiptap's `CommandManager`, modelled in Dafny

This project models the command-dispatch layer of the tiptap editor core
(`packages/core/src/CommandManager.ts`). It covers the layer's three ways of
running registered commands against a ProseMirror transaction:

- **immediate mode** (`createCommands`): run a command, then dispatch;
- **chain mode** (`createChain` and its `run`): accumulate results on one
  transaction and dispatch once;
- **probe mode** (`createCan`): run commands with no commit capability.

It also covers `buildProps`, which builds the argument bundle every command
receives, and the `state` getter.

Modules:

- `Js` (`js.dfy`): the JavaScript semantics the layer relies on. These are
  truthiness, `=== true`, default parameters, and `x || fallback` on objects.
- `ProseMirror` (`prosemirror.dfy`): abstract collaborators. A transaction is
  its steps, a meta map and optional stored marks. The view is the log of
  transactions dispatched to it.
- `CommandManager` (`command_manager.dfy`): the bundle, the three modes, and
  one level of re-entry through `props.chain()` / `props.can()`.
- `ChainProperties`, `ImmediateProperties`, `ProbeProperties`: the modes over
  whole call sequences, plus the lemmas relating them.

JavaScript shares one mutable transaction object among all calls made
through one returned object. The model threads that transaction as a value
instead. Each returned object (`SingleCommands`, `ChainedCommands`,
`CanCommands`) is a record holding the transaction's current contents, and
each call returns the updated record. A command is an arbitrary function
`Props -> Outcome` that yields a JavaScript value and the transaction as it
left it. Results are `Js.Value`s, not booleans, because `run` tests them with
`=== true`.

Three behaviours of the code worth knowing:

- Immediate mode reads `state.tr` and builds the bundle once per
  `createCommands` call (lines 33-34), not once per command call. Every method
  of the returned object shares that transaction, and each call dispatches it
  again. Stored marks are copied once, when the object is created.
- The direct probes of one `createCan` object are not independent. They all
  run on the same transaction (lines 90-95).
- `can().chain()` is not a chain with commit disabled. It calls
  `createChain(tr, undefined)`, and `undefined` takes the default `true`.
  It never dispatches because a start transaction is supplied, but its
  commands do receive a dispatch function (see Findings).

The chain object spreads the commands first and then adds its own `run`
(lines 68-82), so a command registered as `run` cannot be chained. In the
same way, a command registered as `chain` cannot be probed directly on the
`can()` object (lines 98-101). `ChainCommand` and `Probe` exclude those names
in their preconditions. The sequence lemmas use `Chainable` and `Probeable`
for this. Immediate mode has no such name.

## Model

| member | source | states |
|---|---|---|
| `CommandManager.State` | packages/core/src/CommandManager.ts:26-28 | The state is the one given at construction when present, and the editor's state otherwise. |
| `CommandManager.CopyStoredMarks` | packages/core/src/CommandManager.ts:108-110 | When the state has stored marks (even an empty array), the transaction gets exactly those. Otherwise the transaction is untouched. Steps and meta are never changed. |
| `CommandManager.Bundle` | packages/core/src/CommandManager.ts:112-124 | The bundle's transaction, its chainable state and its `chain`/`can` closures are all bound to the one transaction passed in. `dispatch` is present iff the flag is truthy. |
| `CommandManager.BuildProps` | packages/core/src/CommandManager.ts:104-135 | Stored marks are copied onto the transaction when present, and nothing else about it changes. `dispatch` is present iff the flag is `undefined` (the default) or truthy. `chain`/`can` are bound to the bundle's transaction. The state view is the chainable state of (state, that transaction). |
| `Js.WithDefault` | packages/core/src/CommandManager.ts:104 | A parameter declared with a default takes the default exactly when `undefined` is passed. |
| `CommandManager.CreateCommands` | packages/core/src/CommandManager.ts:30-34 | One fresh transaction per `createCommands` call. It has no steps and no meta, and carries the state's stored marks. |
| `CommandManager.SingleProps` | packages/core/src/CommandManager.ts:34-40 | The single bundle of immediate mode always offers dispatch. It shows the shared transaction as it currently stands, with no second copy of stored marks. |
| `CommandManager.CallCommand` | packages/core/src/CommandManager.ts:39-47 | An immediate call returns the command's value unchanged. It dispatches the shared transaction iff `preventDispatch` is falsy afterwards, whatever the value was. |
| `CommandManager.CreateChain` | packages/core/src/CommandManager.ts:53-58 | A new chain has an empty accumulator. It has a start transaction iff one was supplied, and then works on it; otherwise it works on a fresh one. An `undefined` flag becomes `true`, and any other flag is kept. |
| `CommandManager.ChainProps` | packages/core/src/CommandManager.ts:71 | Each chained call gets a new bundle over the shared transaction. Its state view is over that transaction. Its dispatch follows the chain's flag. |
| `CommandManager.ChainCommand` | packages/core/src/CommandManager.ts:68-82 | A chained call is made on any registered name except `run`, which the chain's own `run` hides. The call appends exactly its command's value and keeps earlier values. It continues on the transaction the command left and returns the same chain (same start flag, same `shouldDispatch`). |
| `CommandManager.Every` | packages/core/src/CommandManager.ts:65 | The left-to-right short-circuit `every` is true iff every value is `=== true`. |
| `CommandManager.Run` | packages/core/src/CommandManager.ts:60-66 | `run` is true iff every accumulated value is `=== true`, and an empty chain is true. It dispatches exactly once iff there is no start transaction, the flag is truthy and `preventDispatch` is falsy. A chain with a start transaction never dispatches. |
| `CommandManager.CreateCan` | packages/core/src/CommandManager.ts:87-91 | The probe works on the start transaction, or else on a fresh one, with the state's stored marks copied on once. |
| `CommandManager.CanBaseProps` | packages/core/src/CommandManager.ts:89-91 | The bundle `createCan` builds sits over the probe's transaction and the state read at creation. |
| `CommandManager.ProbeProps` | packages/core/src/CommandManager.ts:95 | A direct probe passes a bundle with no dispatch. Its transaction, state view and `chain`/`can` are all the probe's transaction. |
| `CommandManager.Probe` | packages/core/src/CommandManager.ts:92-101 | A probe is made on any registered name except `chain`, which the object's own `chain` hides. It returns the command's value as is and continues on the transaction the command left. It has no access to the view. |
| `CommandManager.CanChain` | packages/core/src/CommandManager.ts:100 | `can().chain()` is a chain with a start transaction (the probe's), an empty accumulator and `shouldDispatch` equal to `true`. |
| `CommandManager.Edited` | packages/core/src/CommandManager.ts:112-124 | Once a command edits its bundle's transaction, the bundle's `tr`, its state view and its `chain`/`can` closures all see the edited transaction, because they share the one object. Only `dispatch` stays as built. |
| `CommandManager.PropsChain` | packages/core/src/CommandManager.ts:123 | `props.chain()` is a chain started on the bundle's transaction as it stands when called, with the default flag `true`. |
| `CommandManager.PropsCan` | packages/core/src/CommandManager.ts:124 | `props.can()` probes the bundle's transaction as it stands when called, with stored marks copied again. |
| `ChainProperties.ChainCommands` | packages/core/src/CommandManager.ts:68-84 | Any sequence of chained calls keeps the chain's identity. It appends one value per call, none skipped, and keeps the earlier values. |
| `ChainProperties.CallbacksAreStepResults` | packages/core/src/CommandManager.ts:70-76 | The i-th accumulated value is what the i-th command returned on the transaction after the first i calls, whatever earlier values were. The chain ends on the transaction the last command left. |
| `ChainProperties.StepsSeePreviousSteps` | packages/core/src/CommandManager.ts:116-119 | A chained command's state view holds exactly the steps and meta the previous chained command left on the shared transaction. |
| `ChainProperties.ChainRunIsConjunction` | packages/core/src/CommandManager.ts:56-66 | After any calls on a new chain, `run` is true iff every chained command returned `=== true`. With no calls it is true. |
| `ChainProperties.ChainRunDispatchesOnceIff` | packages/core/src/CommandManager.ts:57-63 | After any calls, `run` dispatches the final transaction exactly once iff no start transaction was given, the flag (`undefined` meaning `true`) is truthy and `preventDispatch` is falsy. Otherwise it dispatches nothing. |
| `ChainProperties.StartedChainNeverDispatches` | packages/core/src/CommandManager.ts:57-61 | A chain given a start transaction never dispatches, whatever the flag and the commands. |
| `ChainProperties.ChainRecopiesStoredMarks` | packages/core/src/CommandManager.ts:71 | When the state has stored marks, every chained command sees them, even if the previous command replaced them. |
| `ChainProperties.TruthyValuesDoNotCountAsSuccess` | packages/core/src/CommandManager.ts:65 | One value that is not `=== true` makes `run` false even when it is truthy; a chain of `true` and `1` fails although every value is truthy. |
| `ChainProperties.PreventDispatchMetaDecidesRun` | packages/core/src/CommandManager.ts:61-63 | A truthy `preventDispatch` meta stops `run` from dispatching. A falsy one lets a chain with no start transaction and a truthy flag dispatch. |
| `ChainProperties.ExecuteChain` | packages/core/src/CommandManager.ts:53-85 | `chain().a().b()...run()` is true iff every command returned `=== true`. The view gains at most one transaction, the one the last command left. A supplied start transaction means the view is unchanged. |
| `ImmediateProperties.CallCommands` | packages/core/src/CommandManager.ts:36-50 | A sequence of immediate calls on one object yields one value per call. It keeps the object's state, and extends the view by at most one transaction per call. |
| `ImmediateProperties.CallsReturnCommandValues` | packages/core/src/CommandManager.ts:39-46 | Each immediate call returns its own command's value unchanged. The object ends on the transaction the last command left. |
| `ImmediateProperties.CallContinuesPrevious` | packages/core/src/CommandManager.ts:33-40 | The first call runs on the object's own transaction. Each later call runs on the transaction the previous call left, never on a fresh one. |
| `ImmediateProperties.ViewGainsUnpreventedCalls` | packages/core/src/CommandManager.ts:39-46 | Over any sequence of immediate calls, the view gains exactly the transactions of the calls whose command left `preventDispatch` falsy, in call order. |
| `ImmediateProperties.EveryUnpreventedCallDispatches` | packages/core/src/CommandManager.ts:39-44 | If no command sets `preventDispatch`, the view receives one transaction per call, in order: the shared transaction as that call left it. |
| `ImmediateProperties.PreventedCallsNeverDispatch` | packages/core/src/CommandManager.ts:42-44 | If every command sets `preventDispatch`, immediate calls dispatch nothing. |
| `ImmediateProperties.MarksCopiedOnceInImmediateMode` | packages/core/src/CommandManager.ts:33-40 | In immediate mode a later call sees the stored marks the previous command left. They are not copied again from the state. |
| `ProbeProperties.ProbeCalls` | packages/core/src/CommandManager.ts:92-96 | A sequence of probes yields one value per probe and keeps the probe's state. |
| `ProbeProperties.ProbesReturnValuesWithoutDispatch` | packages/core/src/CommandManager.ts:95 | Every probe returns its command's value and gives it no dispatch. Probes accumulate on one transaction. |
| `ProbeProperties.CanBundleDefaultsToDispatch` | packages/core/src/CommandManager.ts:89-95 | The bundle built with `buildProps(tr, undefined)` has a dispatch function. Only the per-probe override removes it. |
| `ProbeProperties.CanChainNeverDispatches` | packages/core/src/CommandManager.ts:100 | After any probes, `can().chain()` runs on the probe's transaction. Its `run` never dispatches and is true iff every chained command returned `=== true`. |
| `ProbeProperties.ProbeAfterCanChain` | packages/core/src/CommandManager.ts:90-100 | `can().chain()` works on the probe's own transaction, so after its calls the probe continues on the transaction the last chained command left. |
| `ProbeProperties.LaterProbeSeesCanChainEdits` | packages/core/src/CommandManager.ts:90-100 | A probe made after `can().chain()...` gets a bundle whose transaction and state view are what the chained commands left, still with no dispatch. |
| `ProbeProperties.CanChainOffersDispatch` | packages/core/src/CommandManager.ts:89-100 | As written, every command chained through `can().chain()` receives a dispatch function. |
| `ProbeProperties.CanChainIntended` | packages/core/src/CommandManager.ts:100 | The corrected `can().chain()` has a start transaction, an empty accumulator and a falsy, explicit `shouldDispatch`. |
| `ProbeProperties.IntendedCanChainWithholdsDispatch` | packages/core/src/CommandManager.ts:100 | The corrected `can().chain()` gives no chained command a dispatch function and never dispatches. |
| `ProbeProperties.PropsReentryStaysOnTransaction` | packages/core/src/CommandManager.ts:123-124 | After a command has edited its transaction, `props.chain()` starts on the edited transaction, meta edits included, and its `run` never dispatches. `props.can()` probes the edited transaction with the state's stored marks copied again. Without edits both start on the bundle's transaction. |

## Findings

| source | as written | input that shows it | evidently intended | confidence | as-written member | corrected member |
|---|---|---|---|---|---|---|
| packages/core/src/CommandManager.ts:89-100 | `createCan` passes `dispatch = undefined` to `createChain` as `shouldDispatch`. The default `true` then applies, so every command chained through `can().chain()` gets `dispatch: () => undefined`. | `can().chain().c().run()` where `c` edits `tr` only when `dispatch` is present. `c` sees a dispatch function and edits the probe's transaction; later probes see the edit (`ProbeProperties.LaterProbeSeesCanChainEdits`), and under `props.can()` that transaction is the caller's own. | Chained probe commands get no dispatch, i.e. `createChain(tr, false)`. | medium; not executed | `ProbeProperties.CanChainOffersDispatch` | `ProbeProperties.CanChainIntended` |

`CommandManager.CanChain` keeps the as-written behaviour. The corrected
definition sits beside it, with its property in
`ProbeProperties.IntendedCanChainWithholdsDispatch`.

## Left out

- The lazy `commands` getter of the bundle (lines 125-131) is not modelled. The same goes for re-entry deeper than one level through `props.chain()`/`props.can()`. Either would need a command to call back into the model.
- `createChainableState` is not part of this model. The bundle's `state` is the symbolic pair (base state, transaction) it is a function of.
- The `editor` and `view` fields of the bundle are not modelled. The view appears only as the log of `dispatch` calls.
- Command factories and `...args` are not modelled: a registered command is a body with its arguments already applied. Calling an unregistered name is a caller error in the source, so it is a precondition here.
- Commands that throw are not modelled. The layer does nothing about them.
- ProseMirror's transaction internals are not modelled beyond steps, meta and stored marks. A fresh `state.tr` starts with the state's stored marks, as the library's constructor does. Dispatching a transaction does not change the modelled editor state. Updating `editor.state` is the editor's own `dispatchTransaction`, outside this layer.
- The view log records each dispatched transaction's contents at dispatch time. JavaScript hands the view the same object, which later calls on that object keep mutating.
- CommandManager.CanChain: the chain is a separate value. The edits its calls make to the probe's transaction flow back only through `ProbeProperties.ProbeAfterCanChain`, which a caller of the model applies after the chain.
- CommandManager.PropsChain: the bundle's closures see the body's edits made before the call only when the body calls them on `CommandManager.Edited(p, t)`, the bundle over its current transaction. A body is an arbitrary function, so the model cannot force it to. The chain is also a separate value. Its edits reach the outer command's transaction only if the command body returns the chain's final transaction as its outcome. The model does not force that, because a command body is an arbitrary function.
- CommandManager.PropsCan: the same holds for probes made through `props.can()`: they see earlier edits when called on `CommandManager.Edited(p, t)`. Their edits reach the outer transaction only through the transaction the command body returns.
- JavaScript numbers are modelled as integers plus `NaN`. Only their truthiness matters here.

=== FILE: chain_properties.dfy ===
/** Chain mode over whole call sequences: `chain().a().b()...run()`. */
module ChainProperties {
  import opened Js
  import opened ProseMirror
  import opened CommandManager

  /** The chain `c` after the chained calls `names`, in order. */
  function ChainCommands(m: Manager, c: ChainedCommands, names: seq<string>): (r: ChainedCommands)
    requires Chainable(m, names)
    ensures r.hasStart == c.hasStart && r.shouldDispatch == c.shouldDispatch
    ensures |r.callbacks| == |c.callbacks| + |names|
    ensures r.callbacks[..|c.callbacks|] == c.callbacks
    decreases |names|
  {
    if names == [] then c
    else ChainCommand(m, ChainCommands(m, c, names[..|names| - 1]), names[|names| - 1])
  }

  /** The bundle the `i`-th chained call receives. */
  function StepProps(m: Manager, c: ChainedCommands, names: seq<string>, i: nat): Props
    requires Chainable(m, names) && i < |names|
  {
    ChainProps(m, ChainCommands(m, c, names[..i]))
  }

  /** What the `i`-th chained command yields. */
  function StepOutcome(m: Manager, c: ChainedCommands, names: seq<string>, i: nat): Outcome
    requires Chainable(m, names) && i < |names|
  {
    m.commands[names[i]](StepProps(m, c, names, i))
  }

  /** Every chained call appends exactly its own command's value, in call
      order, whatever the earlier values were; the chain ends on the
      transaction the last command left. */
  lemma {:induction false} CallbacksAreStepResults(m: Manager, c: ChainedCommands, names: seq<string>)
    requires Chainable(m, names)
    ensures var r := ChainCommands(m, c, names);
      forall i :: 0 <= i < |names| ==> r.callbacks[|c.callbacks| + i] == StepOutcome(m, c, names, i).result
    ensures names != [] ==> ChainCommands(m, c, names).tr == StepOutcome(m, c, names, |names| - 1).tr
  {
    if names != [] {
      var n := |names| - 1;
      var init := names[..n];
      CallbacksAreStepResults(m, c, init);
      var prev := ChainCommands(m, c, init);
      var r := ChainCommands(m, c, names);
      assert names[..n] == init;
      forall i | 0 <= i < |names|
        ensures r.callbacks[|c.callbacks| + i] == StepOutcome(m, c, names, i).result
      {
        if i < n {
          assert init[..i] == names[..i];
          assert StepOutcome(m, c, init, i) == StepOutcome(m, c, names, i);
          assert r.callbacks[..|prev.callbacks|] == prev.callbacks;
          assert r.callbacks[|c.callbacks| + i] == prev.callbacks[|c.callbacks| + i];
        }
      }
    }
  }

  /** Each chained call sees, through its bundle's state, exactly the steps
      the previous call left on the shared transaction. */
  lemma {:induction false} StepsSeePreviousSteps(m: Manager, c: ChainedCommands, names: seq<string>, i: nat)
    requires Chainable(m, names) && i + 1 < |names|
    ensures StepProps(m, c, names, i + 1).state.transaction.steps == StepOutcome(m, c, names, i).tr.steps
    ensures StepProps(m, c, names, i + 1).tr.meta == StepOutcome(m, c, names, i).tr.meta
  {
    var pre := names[..i + 1];
    assert pre[..i] == names[..i];
    assert pre[i] == names[i];
    assert ChainCommands(m, c, pre) == ChainCommand(m, ChainCommands(m, c, names[..i]), names[i]);
  }

  /** `run()` after the calls `names` on a new chain is true exactly when
      every chained command returned `=== true`; with no calls it is true. */
  lemma ChainRunIsConjunction(m: Manager, start: Option<Transaction>, flag: Value, names: seq<string>, view: View)
    requires Chainable(m, names)
    ensures var c0 := CreateChain(m, start, flag);
      Run(ChainCommands(m, c0, names), view).ok <==>
        forall i :: 0 <= i < |names| ==> StrictTrue(StepOutcome(m, c0, names, i).result)
    ensures names == [] ==> Run(CreateChain(m, start, flag), view).ok
  {
    var c0 := CreateChain(m, start, flag);
    var c := ChainCommands(m, c0, names);
    CallbacksAreStepResults(m, c0, names);
    assert |c.callbacks| == |names|;
    assert forall i :: 0 <= i < |names| ==> c.callbacks[i] == StepOutcome(m, c0, names, i).result;
  }

  /** `run()` after any calls dispatches the shared transaction exactly once
      when the chain has no start transaction, its flag (defaulting to
      `true`) is truthy and `preventDispatch` is falsy; otherwise it
      dispatches nothing. */
  lemma ChainRunDispatchesOnceIff(m: Manager, start: Option<Transaction>, flag: Value, names: seq<string>, view: View)
    requires Chainable(m, names)
    ensures var c := ChainCommands(m, CreateChain(m, start, flag), names);
      var fires := start.None? && (flag == Undefined || Truthy(flag)) && !DispatchPrevented(c.tr);
      && (fires ==> Run(c, view).view == view + [c.tr])
      && (!fires ==> Run(c, view).view == view)
  {
  }

  /** A chain given a start transaction never dispatches, whatever its flag
      and whatever its commands did. */
  lemma StartedChainNeverDispatches(m: Manager, t: Transaction, flag: Value, names: seq<string>, view: View)
    requires Chainable(m, names)
    ensures Run(ChainCommands(m, CreateChain(m, Some(t), flag), names), view).view == view
  {
  }

  /** Chain mode builds a new bundle for every call, so when the state has
      stored marks every chained command sees them on the transaction, even
      if the previous command replaced them. */
  lemma ChainRecopiesStoredMarks(m: Manager, c: ChainedCommands, names: seq<string>, i: nat)
    requires Chainable(m, names) && i < |names|
    requires State(m).storedMarks.Some?
    ensures StepProps(m, c, names, i).tr.storedMarks == State(m).storedMarks
  {
  }

  /** `run` tests `=== true`, not truthiness: one value that is not the
      boolean `true` fails the chain even when it is truthy, so a chain of
      `true` and `1` fails although every value is truthy. */
  lemma TruthyValuesDoNotCountAsSuccess(c: ChainedCommands, view: View)
    ensures (exists i :: 0 <= i < |c.callbacks| && !StrictTrue(c.callbacks[i])) ==> !Run(c, view).ok
    ensures var c' := c.(callbacks := [Bool(true), Num(1)]);
      (forall i :: 0 <= i < |c'.callbacks| ==> Truthy(c'.callbacks[i])) && !Run(c', view).ok
  {
    var c' := c.(callbacks := [Bool(true), Num(1)]);
    assert !StrictTrue(c'.callbacks[1]);
  }

  /** The `preventDispatch` meta a command sets decides `run`: a truthy value
      stops the dispatch; a falsy one leaves a chain without a start
      transaction and with a truthy flag dispatching. */
  lemma PreventDispatchMetaDecidesRun(c: ChainedCommands, v: Value, view: View)
    ensures var c' := c.(tr := SetMeta(c.tr, PreventDispatchKey, v));
      && (Truthy(v) ==> Run(c', view).view == view)
      && (!Truthy(v) && !c.hasStart && Truthy(c.shouldDispatch) ==> Run(c', view).view == view + [c'.tr])
  {
  }

  /** `chain().a().b()...run()` as one sequence: builds the chain, makes the
      calls one after the other, then runs it. */
  method ExecuteChain(m: Manager, start: Option<Transaction>, flag: Value, names: seq<string>, view: View)
    returns (ok: bool, view': View)
    requires Chainable(m, names)
    ensures ok <==> forall i :: 0 <= i < |names| ==>
      StrictTrue(StepOutcome(m, CreateChain(m, start, flag), names, i).result)
    ensures start.Some? ==> view' == view
    ensures view' == view || (|view'| == |view| + 1 && view'[..|view|] == view)
    ensures names != [] && view' != view ==>
      view'[|view|] == StepOutcome(m, CreateChain(m, start, flag), names, |names| - 1).tr
  {
    var c0 := CreateChain(m, start, flag);
    var c := c0;
    var i := 0;
    while i < |names|
      invariant 0 <= i <= |names|
      invariant c == ChainCommands(m, c0, names[..i])
    {
      assert names[..i + 1][..i] == names[..i];
      c := ChainCommand(m, c, names[i]);
      i := i + 1;
    }
    assert names[..|names|] == names;
    ChainRunIsConjunction(m, start, flag, names, view);
    CallbacksAreStepResults(m, c0, names);
    var r := Run(c, view);
    ok, view' := r.ok, r.view;
  }
}

=== FILE: command_manager.dfy ===
/** The command-dispatch layer: the argument bundle every command receives
    (`buildProps`) and the three ways of running registered commands against
    a transaction — immediate (`createCommands`), chained (`createChain` and
    its `run`) and probing (`createCan`).

    JavaScript shares one mutable transaction object between all calls made
    through one returned object. Here that object is a value threaded through
    the calls: each returned object is a record holding the transaction's
    current contents, and every call returns the updated record. */
module CommandManager {
  import opened Js
  import opened ProseMirror

  /** The commit capability handed to commands: `() => undefined`. */
  datatype DispatchFn = ReturnsUndefined

  /** `createChainableState({ state, transaction })`: the state as if the
      transaction's steps were applied to `base`. Kept symbolic: it is a
      function of exactly these two inputs. */
  datatype ChainableState = ChainableState(base: EditorState, transaction: Transaction)

  /** The argument bundle of one command invocation. `chainOn` and `canOn`
      are the transactions the `chain()` and `can()` closures are bound to. */
  datatype Props = Props(
    tr: Transaction,
    state: ChainableState,
    dispatch: Option<DispatchFn>,
    chainOn: Transaction,
    canOn: Transaction)

  /** What a command body yields: its return value (any JavaScript value,
      since callers test it with `=== true`) and the transaction as the body
      left it. */
  datatype Outcome = Outcome(result: Value, tr: Transaction)

  /** A registered command with its arguments already applied. */
  type Command = Props -> Outcome

  /** The manager: the editor's state, the optional state given at
      construction, and the command registry. */
  datatype Manager = Manager(
    editorState: EditorState,
    optionalState: Option<EditorState>,
    commands: map<string, Command>)

  /** Every name in `names` is a registered command. */
  predicate Registered(m: Manager, names: seq<string>) {
    forall i :: 0 <= i < |names| ==> names[i] in m.commands
  }

  /** The chain object's own `run`, which hides a command registered under
      that name: the object is the commands spread first, then `run`. */
  const RunKey: string := "run"

  /** The `can()` object's own `chain`, which hides a command registered
      under that name in the same way. */
  const ChainKey: string := "chain"

  /** Names a chain object answers with a chained command: registered, and
      not hidden by `run`. */
  predicate Chainable(m: Manager, names: seq<string>) {
    Registered(m, names) && forall i :: 0 <= i < |names| ==> names[i] != RunKey
  }

  /** Names a `can()` object answers with a direct probe: registered, and
      not hidden by `chain`. */
  predicate Probeable(m: Manager, names: seq<string>) {
    Registered(m, names) && forall i :: 0 <= i < |names| ==> names[i] != ChainKey
  }

  /** The `state` getter: the state given at construction when there is one,
      the editor's state otherwise. */
  function State(m: Manager): (s: EditorState)
    ensures m.optionalState.Some? ==> s == m.optionalState.value
    ensures m.optionalState.None? ==> s == m.editorState
  {
    m.optionalState.OrElse(m.editorState)
  }

  // ---------------------------------------------------------------------
  // buildProps
  // ---------------------------------------------------------------------

  /** The first half of `buildProps`: when the state has stored marks (an
      empty array counts), they are copied onto the transaction. */
  function CopyStoredMarks(state: EditorState, tr: Transaction): (r: Transaction)
    ensures r.steps == tr.steps && r.meta == tr.meta
    ensures state.storedMarks.Some? ==> r.storedMarks == state.storedMarks
    ensures state.storedMarks.None? ==> r == tr
  {
    if state.storedMarks.Some? then SetStoredMarks(tr, state.storedMarks) else tr
  }

  /** The bundle object itself, over the transaction's current contents:
      `dispatch` is a function exactly when `shouldDispatch` is truthy, and
      `chain`/`can` are bound to the same transaction. */
  function Bundle(base: EditorState, tr: Transaction, shouldDispatch: Value): (p: Props)
    ensures p.tr == tr && p.chainOn == tr && p.canOn == tr
    ensures p.state == ChainableState(base, tr)
    ensures p.dispatch.Some? <==> Truthy(shouldDispatch)
  {
    Props(
      tr,
      ChainableState(base, tr),
      if Truthy(shouldDispatch) then Some(ReturnsUndefined) else None,
      tr,
      tr)
  }

  /** `buildProps(tr, shouldDispatch = true)`; an omitted flag is passed as
      `Undefined`. */
  function BuildProps(m: Manager, tr: Transaction, shouldDispatch: Value): (p: Props)
    ensures p.tr.steps == tr.steps && p.tr.meta == tr.meta
    ensures State(m).storedMarks.Some? ==> p.tr.storedMarks == State(m).storedMarks
    ensures State(m).storedMarks.None? ==> p.tr == tr
    ensures p.dispatch.Some? <==> (shouldDispatch == Undefined || Truthy(shouldDispatch))
    ensures p.chainOn == p.tr && p.canOn == p.tr
    ensures p.state == ChainableState(State(m), p.tr)
  {
    var state := State(m);
    Bundle(state, CopyStoredMarks(state, tr), WithDefault(shouldDispatch, Bool(true)))
  }

  // ---------------------------------------------------------------------
  // createCommands: immediate mode
  // ---------------------------------------------------------------------

  /** The object `createCommands` returns. It read the state and built its
      one transaction (and its one bundle) when it was created; every method
      runs against that same transaction. */
  datatype SingleCommands = SingleCommands(base: EditorState, tr: Transaction)

  /** `createCommands()`: one fresh transaction carrying the state's stored
      marks, shared by every method of the result. */
  function CreateCommands(m: Manager): (s: SingleCommands)
    ensures s.base == State(m)
    ensures s.tr.steps == [] && s.tr.meta == map[]
    ensures s.tr.storedMarks == State(m).storedMarks
  {
    var state := State(m);
    SingleCommands(state, BuildProps(m, NewTransaction(state), Undefined).tr)
  }

  /** The bundle built once by `createCommands`, as a command sees it: it
      may dispatch, and its transaction is the shared one as it stands now
      (stored marks are not copied again). */
  function SingleProps(s: SingleCommands): (p: Props)
    ensures p.tr == s.tr && p.dispatch.Some?
    ensures p.chainOn == s.tr && p.canOn == s.tr
    ensures p.state == ChainableState(s.base, s.tr)
  {
    Bundle(s.base, s.tr, Bool(true))
  }

  datatype ImmediateResult = ImmediateResult(value: Value, commands: SingleCommands, view: View)

  /** One method call on the object `createCommands` returned: run the
      command, then hand the shared transaction to the view unless the
      transaction's `preventDispatch` meta is truthy. The command's value is
      returned unchanged, whatever it is. */
  function CallCommand(m: Manager, s: SingleCommands, name: string, view: View): (r: ImmediateResult)
    requires name in m.commands
    ensures var o := m.commands[name](SingleProps(s));
      && r.value == o.result
      && r.commands == SingleCommands(s.base, o.tr)
      && (DispatchPrevented(o.tr) ==> r.view == view)
      && (!DispatchPrevented(o.tr) ==> r.view == view + [o.tr])
  {
    var o := m.commands[name](SingleProps(s));
    var view' := if !DispatchPrevented(o.tr) then Dispatch(view, o.tr) else view;
    ImmediateResult(o.result, SingleCommands(s.base, o.tr), view')
  }

  // ---------------------------------------------------------------------
  // createChain: chain mode
  // ---------------------------------------------------------------------

  /** The chain object: whether a start transaction was supplied, the
      effective `shouldDispatch`, the shared transaction and the values the
      chained commands returned so far. */
  datatype ChainedCommands = ChainedCommands(
    hasStart: bool,
    shouldDispatch: Value,
    tr: Transaction,
    callbacks: seq<Value>)

  /** `createChain(startTr?, shouldDispatch = true)`. */
  function CreateChain(m: Manager, startTr: Option<Transaction>, shouldDispatch: Value): (c: ChainedCommands)
    ensures c.callbacks == []
    ensures c.hasStart <==> startTr.Some?
    ensures startTr.Some? ==> c.tr == startTr.value
    ensures startTr.None? ==> c.tr == NewTransaction(State(m))
    ensures shouldDispatch == Undefined ==> c.shouldDispatch == Bool(true)
    ensures shouldDispatch != Undefined ==> c.shouldDispatch == shouldDispatch
  {
    ChainedCommands(
      startTr.Some?,
      WithDefault(shouldDispatch, Bool(true)),
      startTr.OrElse(NewTransaction(State(m))),
      [])
  }

  /** The bundle a chained command receives: built afresh for each call,
      over the shared transaction, with the chain's `shouldDispatch`. */
  function ChainProps(m: Manager, c: ChainedCommands): (p: Props)
    ensures p.tr.steps == c.tr.steps && p.tr.meta == c.tr.meta
    ensures State(m).storedMarks.Some? ==> p.tr.storedMarks == State(m).storedMarks
    ensures State(m).storedMarks.None? ==> p.tr == c.tr
    ensures p.chainOn == p.tr && p.canOn == p.tr
    ensures p.state == ChainableState(State(m), p.tr)
    ensures p.dispatch.Some? <==> (c.shouldDispatch == Undefined || Truthy(c.shouldDispatch))
  {
    BuildProps(m, c.tr, c.shouldDispatch)
  }

  /** One chained call: the command runs on the shared transaction, its
      value is appended to the accumulator, and the same chain comes back.
      Nothing is dispatched and earlier values never stop the call. */
  function ChainCommand(m: Manager, c: ChainedCommands, name: string): (r: ChainedCommands)
    requires name in m.commands && name != RunKey
    ensures r.hasStart == c.hasStart && r.shouldDispatch == c.shouldDispatch
    ensures |r.callbacks| == |c.callbacks| + 1 && r.callbacks[..|c.callbacks|] == c.callbacks
    ensures var o := m.commands[name](ChainProps(m, c));
      r.callbacks[|c.callbacks|] == o.result && r.tr == o.tr
  {
    var o := m.commands[name](ChainProps(m, c));
    ChainedCommands(c.hasStart, c.shouldDispatch, o.tr, c.callbacks + [o.result])
  }

  /** `callbacks.every(callback => callback === true)`, checked left to
      right and stopping at the first value that is not `true`. */
  function Every(callbacks: seq<Value>): (r: bool)
    ensures r <==> forall i :: 0 <= i < |callbacks| ==> StrictTrue(callbacks[i])
  {
    if callbacks == [] then true
    else if !StrictTrue(callbacks[0]) then false
    else Every(callbacks[1..])
  }

  /** Whether `run()` hands the transaction to the view. */
  predicate RunDispatches(c: ChainedCommands) {
    !c.hasStart && Truthy(c.shouldDispatch) && !DispatchPrevented(c.tr)
  }

  datatype RunResult = RunResult(ok: bool, view: View)

  /** `run()`: dispatch at most once, then report whether every chained
      command returned exactly `true` (vacuously so for an empty chain). */
  function Run(c: ChainedCommands, view: View): (r: RunResult)
    ensures r.ok <==> forall i :: 0 <= i < |c.callbacks| ==> StrictTrue(c.callbacks[i])
    ensures c.callbacks == [] ==> r.ok
    ensures RunDispatches(c) ==> r.view == view + [c.tr]
    ensures !RunDispatches(c) ==> r.view == view
    ensures c.hasStart ==> r.view == view
  {
    var view' := if RunDispatches(c) then Dispatch(view, c.tr) else view;
    RunResult(Every(c.callbacks), view')
  }

  // ---------------------------------------------------------------------
  // createCan: probe mode
  // ---------------------------------------------------------------------

  /** The object `createCan` returns: the state it read and the probe's
      transaction, shared by every probe and by `chain()`. */
  datatype CanCommands = CanCommands(base: EditorState, tr: Transaction)

  /** `createCan(startTr?)`: the start transaction, or a fresh one, with the
      state's stored marks copied on once. */
  function CreateCan(m: Manager, startTr: Option<Transaction>): (s: CanCommands)
    ensures s.base == State(m)
    ensures startTr.Some? ==> s.tr == CopyStoredMarks(State(m), startTr.value)
    ensures startTr.None? ==> s.tr.steps == [] && s.tr.meta == map[]
    ensures startTr.None? ==> s.tr.storedMarks == State(m).storedMarks
  {
    var state := State(m);
    CanCommands(state, BuildProps(m, startTr.OrElse(NewTransaction(state)), Undefined).tr)
  }

  /** The bundle `createCan` builds: `buildProps(tr, undefined)`. The flag
      `undefined` takes the default `true`, so this bundle CAN dispatch. */
  function CanBaseProps(s: CanCommands): (p: Props)
    ensures p.tr == s.tr && p.state == ChainableState(s.base, s.tr)
    ensures p.chainOn == s.tr && p.canOn == s.tr
  {
    Bundle(s.base, s.tr, WithDefault(Undefined, Bool(true)))
  }

  /** `{ ...props, dispatch }` with `dispatch` undefined: what a direct
      probe passes to the command. */
  function ProbeProps(s: CanCommands): (p: Props)
    ensures p.dispatch == None
    ensures p.tr == s.tr && p.state == ChainableState(s.base, s.tr)
    ensures p.chainOn == s.tr && p.canOn == s.tr
  {
    CanBaseProps(s).(dispatch := None)
  }

  datatype ProbeResult = ProbeResult(value: Value, can: CanCommands)

  /** A direct probe: the command runs with no commit capability against
      the probe's transaction and its value is returned as is. Probe mode
      has no access to the view. */
  function Probe(m: Manager, s: CanCommands, name: string): (r: ProbeResult)
    requires name in m.commands && name != ChainKey
    ensures var o := m.commands[name](ProbeProps(s));
      r.value == o.result && r.can == CanCommands(s.base, o.tr)
  {
    var o := m.commands[name](ProbeProps(s));
    ProbeResult(o.result, CanCommands(s.base, o.tr))
  }

  /** `can().chain()`, as written: `createChain(tr, undefined)`. */
  function CanChain(m: Manager, s: CanCommands): (c: ChainedCommands)
    ensures c.hasStart && c.tr == s.tr && c.callbacks == []
    ensures c.shouldDispatch == Bool(true)
  {
    CreateChain(m, Some(s.tr), Undefined)
  }

  // ---------------------------------------------------------------------
  // Re-entry through a bundle (one level)
  // ---------------------------------------------------------------------

  /** A bundle after the command holding it has edited its transaction
      into `t`. The bundle's `tr`, its state view and its `chain`/`can`
      closures all refer to the one transaction object, so all of them now
      see `t`; only `dispatch` is fixed when the bundle is built. */
  function Edited(p: Props, t: Transaction): (r: Props)
    ensures r.tr == t && r.chainOn == t && r.canOn == t
    ensures r.state == ChainableState(p.state.base, t)
    ensures r.dispatch == p.dispatch
  {
    Props(t, ChainableState(p.state.base, t), p.dispatch, t, t)
  }

  /** `props.chain()`: `createChain(tr)` on the bundle's transaction. */
  function PropsChain(m: Manager, p: Props): (c: ChainedCommands)
    ensures c.hasStart && c.tr == p.chainOn && c.callbacks == []
    ensures c.shouldDispatch == Bool(true)
  {
    CreateChain(m, Some(p.chainOn), Undefined)
  }

  /** `props.can()`: `createCan(tr)` on the bundle's transaction. */
  function PropsCan(m: Manager, p: Props): (s: CanCommands)
    ensures s.tr == CopyStoredMarks(State(m), p.canOn)
    ensures s.tr.steps == p.canOn.steps && s.tr.meta == p.canOn.meta
  {
    CreateCan(m, Some(p.canOn))
  }
}

=== FILE: immediate_properties.dfy ===
/** Immediate mode over several method calls on ONE object returned by
    `createCommands()`: the calls share one transaction and each may
    dispatch it again. */
module ImmediateProperties {
  import opened Js
  import opened ProseMirror
  import opened CommandManager

  datatype ImmediateRun = ImmediateRun(values: seq<Value>, commands: SingleCommands, view: View)

  /** The calls `names`, in order, on the object `s`. */
  function CallCommands(m: Manager, s: SingleCommands, names: seq<string>, view: View): (r: ImmediateRun)
    requires Registered(m, names)
    ensures |r.values| == |names|
    ensures r.commands.base == s.base
    ensures |view| <= |r.view| <= |view| + |names| && r.view[..|view|] == view
    decreases |names|
  {
    if names == [] then ImmediateRun([], s, view)
    else
      var prev := CallCommands(m, s, names[..|names| - 1], view);
      var step := CallCommand(m, prev.commands, names[|names| - 1], prev.view);
      ImmediateRun(prev.values + [step.value], step.commands, step.view)
  }

  /** What the `i`-th call's command yields. */
  function CallOutcome(m: Manager, s: SingleCommands, names: seq<string>, i: nat): Outcome
    requires Registered(m, names) && i < |names|
  {
    m.commands[names[i]](SingleProps(CallCommands(m, s, names[..i], []).commands))
  }

  /** The object after the calls does not depend on the view's history. */
  lemma {:induction false} CommandsIgnoreView(m: Manager, s: SingleCommands, names: seq<string>, v1: View, v2: View)
    requires Registered(m, names)
    ensures CallCommands(m, s, names, v1).commands == CallCommands(m, s, names, v2).commands
    ensures CallCommands(m, s, names, v1).values == CallCommands(m, s, names, v2).values
    decreases |names|
  {
    if names != [] {
      CommandsIgnoreView(m, s, names[..|names| - 1], v1, v2);
    }
  }

  /** Each call returns its command's value unchanged (true, false or
      anything else), in call order; the object ends on the transaction the
      last command left. */
  lemma {:induction false} CallsReturnCommandValues(m: Manager, s: SingleCommands, names: seq<string>, view: View)
    requires Registered(m, names)
    ensures var r := CallCommands(m, s, names, view);
      forall i :: 0 <= i < |names| ==> r.values[i] == CallOutcome(m, s, names, i).result
    ensures names != [] ==> CallCommands(m, s, names, view).commands.tr == CallOutcome(m, s, names, |names| - 1).tr
    decreases |names|
  {
    if names != [] {
      var n := |names| - 1;
      var init := names[..n];
      CallsReturnCommandValues(m, s, init, view);
      CommandsIgnoreView(m, s, init, view, []);
      var r := CallCommands(m, s, names, view);
      var prev := CallCommands(m, s, init, view);
      assert names[..n] == init;
      assert r.values == prev.values + [CallOutcome(m, s, names, n).result];
      forall i | 0 <= i < n
        ensures r.values[i] == CallOutcome(m, s, names, i).result
      {
        assert init[..i] == names[..i];
        assert CallOutcome(m, s, init, i) == CallOutcome(m, s, names, i);
      }
    }
  }

  /** One transaction per `createCommands`, not per call: the `i`-th call
      runs on the transaction the previous call left, and the first call on
      the object's own transaction. */
  lemma CallContinuesPrevious(m: Manager, s: SingleCommands, names: seq<string>, i: nat)
    requires Registered(m, names) && i < |names|
    ensures i == 0 ==> SingleProps(CallCommands(m, s, names[..i], []).commands).tr == s.tr
    ensures 0 < i ==> SingleProps(CallCommands(m, s, names[..i], []).commands).tr == CallOutcome(m, s, names, i - 1).tr
  {
    if 0 < i {
      var pre := names[..i];
      assert pre[..i - 1] == names[..i - 1];
      assert pre[i - 1] == names[i - 1];
    }
  }

  /** The transactions the calls `names` dispatch, in call order: each
      call's transaction as its command left it, unless that command left
      `preventDispatch` truthy. */
  function Dispatched(m: Manager, s: SingleCommands, names: seq<string>): (d: seq<Transaction>)
    requires Registered(m, names)
    ensures |d| <= |names|
    decreases |names|
  {
    if names == [] then []
    else
      var n := |names| - 1;
      var t := CallOutcome(m, s, names, n).tr;
      Dispatched(m, s, names[..n]) + (if DispatchPrevented(t) then [] else [t])
  }

  /** Over any sequence of immediate calls the view gains exactly the
      transactions of the calls whose command did not set
      `preventDispatch`, in call order. */
  lemma {:induction false} ViewGainsUnpreventedCalls(m: Manager, s: SingleCommands, names: seq<string>, view: View)
    requires Registered(m, names)
    ensures CallCommands(m, s, names, view).view == view + Dispatched(m, s, names)
    decreases |names|
  {
    if names != [] {
      var n := |names| - 1;
      var init := names[..n];
      ViewGainsUnpreventedCalls(m, s, init, view);
      CommandsIgnoreView(m, s, init, view, []);
      assert names[..n] == init;
      var prev := CallCommands(m, s, init, view);
      var t := CallOutcome(m, s, names, n).tr;
      assert t == m.commands[names[n]](SingleProps(prev.commands)).tr;
      assert CallCommands(m, s, names, view).view == prev.view + (if DispatchPrevented(t) then [] else [t]);
    }
  }

  /** When no command sets `preventDispatch`, every call dispatches: the
      view receives one transaction per call (not one per `createCommands`),
      each being the shared transaction as that call left it. */
  lemma {:induction false} EveryUnpreventedCallDispatches(m: Manager, s: SingleCommands, names: seq<string>, view: View)
    requires Registered(m, names)
    requires forall i :: 0 <= i < |names| ==> !DispatchPrevented(CallOutcome(m, s, names, i).tr)
    ensures var r := CallCommands(m, s, names, view);
      && |r.view| == |view| + |names|
      && forall i :: 0 <= i < |names| ==> r.view[|view| + i] == CallOutcome(m, s, names, i).tr
    decreases |names|
  {
    if names != [] {
      var n := |names| - 1;
      var init := names[..n];
      forall i | 0 <= i < n
        ensures !DispatchPrevented(CallOutcome(m, s, init, i).tr)
      {
        assert init[..i] == names[..i];
        assert CallOutcome(m, s, init, i) == CallOutcome(m, s, names, i);
      }
      EveryUnpreventedCallDispatches(m, s, init, view);
      CommandsIgnoreView(m, s, init, view, []);
      assert names[..n] == init;
      var prev := CallCommands(m, s, init, view);
      var r := CallCommands(m, s, names, view);
      assert r.view == prev.view + [CallOutcome(m, s, names, n).tr];
      forall i | 0 <= i < |names|
        ensures r.view[|view| + i] == CallOutcome(m, s, names, i).tr
      {
        if i < n {
          assert init[..i] == names[..i];
          assert CallOutcome(m, s, init, i) == CallOutcome(m, s, names, i);
        }
      }
    }
  }

  /** When every command sets `preventDispatch`, nothing is dispatched. */
  lemma {:induction false} PreventedCallsNeverDispatch(m: Manager, s: SingleCommands, names: seq<string>, view: View)
    requires Registered(m, names)
    requires forall i :: 0 <= i < |names| ==> DispatchPrevented(CallOutcome(m, s, names, i).tr)
    ensures CallCommands(m, s, names, view).view == view
    decreases |names|
  {
    if names != [] {
      var n := |names| - 1;
      var init := names[..n];
      forall i | 0 <= i < n
        ensures DispatchPrevented(CallOutcome(m, s, init, i).tr)
      {
        assert init[..i] == names[..i];
        assert CallOutcome(m, s, init, i) == CallOutcome(m, s, names, i);
      }
      PreventedCallsNeverDispatch(m, s, init, view);
      CommandsIgnoreView(m, s, init, view, []);
      assert names[..n] == init;
      var prev := CallCommands(m, s, init, view);
      assert prev.commands == CallCommands(m, s, names[..n], []).commands;
      assert DispatchPrevented(CallOutcome(m, s, names, n).tr);
      assert DispatchPrevented(m.commands[names[n]](SingleProps(prev.commands)).tr);
    }
  }

  /** Stored marks are copied once, when `createCommands` runs: a later
      call sees the stored marks the previous command left, not the
      state's. */
  lemma MarksCopiedOnceInImmediateMode(m: Manager, names: seq<string>, i: nat)
    requires Registered(m, names) && 0 < i < |names|
    ensures var s := CreateCommands(m);
      SingleProps(CallCommands(m, s, names[..i], []).commands).tr.storedMarks
        == CallOutcome(m, s, names, i - 1).tr.storedMarks
  {
    CallContinuesPrevious(m, CreateCommands(m), names, i);
  }
}

=== FILE: js.dfy ===
/** The few JavaScript value semantics the command layer relies on: optional
    values, truthiness (`if (x)`, `!x`, `a && b`), strict equality with `true`
    (`x === true`) and default parameters (`f(x = d)`). */
module Js {

  /** An optional value; `None` stands for a missing (`undefined`/`null`) object. */
  datatype Option<+T> = None | Some(value: T) {

    /** `x || fallback` for an `x` that is either missing or an object
        (objects are always truthy). */
    function OrElse(fallback: T): (r: T)
      ensures Some? ==> r == value
      ensures None? ==> r == fallback
    {
      match this
      case Some(v) => v
      case None => fallback
    }
  }

  /** A JavaScript value, as far as the command layer can tell values apart.
      Numbers are restricted to integers plus `NaN`. */
  datatype Value =
    | Undefined
    | Null
    | Bool(b: bool)
    | Num(n: int)
    | NaN
    | Str(s: string)
    | Object(id: nat)

  /** JavaScript truthiness: `undefined`, `null`, `false`, `0`, `NaN` and `""`
      are falsy, everything else (every object included) is truthy. */
  predicate Truthy(v: Value) {
    match v
    case Undefined => false
    case Null => false
    case Bool(b) => b
    case Num(n) => n != 0
    case NaN => false
    case Str(s) => s != ""
    case Object(_) => true
  }

  /** `v === true`: only the boolean `true` itself. */
  predicate StrictTrue(v: Value) {
    v == Bool(true)
  }

  /** The value a parameter declared `p = default` takes when `arg` is passed:
      JavaScript substitutes the default for `undefined` (and for an omitted
      argument, which is `undefined`), and for nothing else. */
  function WithDefault(arg: Value, default: Value): (r: Value)
    ensures arg == Undefined ==> r == default
    ensures arg != Undefined ==> r == arg
  {
    if arg == Undefined then default else arg
  }
}

=== FILE: probe_properties.dfy ===
/** Probe mode over several calls on ONE object returned by `createCan()`,
    and `can().chain()`. */
module ProbeProperties {
  import opened Js
  import opened ProseMirror
  import opened CommandManager
  import opened ChainProperties

  datatype ProbeRun = ProbeRun(values: seq<Value>, can: CanCommands)

  /** The direct probes `names`, in order, on the object `s`. */
  function ProbeCalls(m: Manager, s: CanCommands, names: seq<string>): (r: ProbeRun)
    requires Probeable(m, names)
    ensures |r.values| == |names|
    ensures r.can.base == s.base
    decreases |names|
  {
    if names == [] then ProbeRun([], s)
    else
      var prev := ProbeCalls(m, s, names[..|names| - 1]);
      var step := Probe(m, prev.can, names[|names| - 1]);
      ProbeRun(prev.values + [step.value], step.can)
  }

  /** The bundle the `i`-th probe passes to its command. */
  function ProbeStepProps(m: Manager, s: CanCommands, names: seq<string>, i: nat): Props
    requires Probeable(m, names) && i < |names|
  {
    ProbeProps(ProbeCalls(m, s, names[..i]).can)
  }

  /** What the `i`-th probed command yields. */
  function ProbeOutcome(m: Manager, s: CanCommands, names: seq<string>, i: nat): Outcome
    requires Probeable(m, names) && i < |names|
  {
    m.commands[names[i]](ProbeStepProps(m, s, names, i))
  }

  /** Every probe returns its command's value as is, and gives the command
      no commit capability; the probes all work on the probe's one
      transaction, so a later probe sees what an earlier one left. */
  lemma {:induction false} ProbesReturnValuesWithoutDispatch(m: Manager, s: CanCommands, names: seq<string>)
    requires Probeable(m, names)
    ensures var r := ProbeCalls(m, s, names);
      forall i :: 0 <= i < |names| ==> r.values[i] == ProbeOutcome(m, s, names, i).result
    ensures forall i :: 0 <= i < |names| ==> ProbeStepProps(m, s, names, i).dispatch == None
    ensures names != [] ==> ProbeCalls(m, s, names).can.tr == ProbeOutcome(m, s, names, |names| - 1).tr
    decreases |names|
  {
    if names != [] {
      var n := |names| - 1;
      var init := names[..n];
      ProbesReturnValuesWithoutDispatch(m, s, init);
      var r := ProbeCalls(m, s, names);
      var prev := ProbeCalls(m, s, init);
      assert names[..n] == init;
      assert r.values == prev.values + [ProbeOutcome(m, s, names, n).result];
      forall i | 0 <= i < n
        ensures r.values[i] == ProbeOutcome(m, s, names, i).result
      {
        assert init[..i] == names[..i];
        assert ProbeOutcome(m, s, init, i) == ProbeOutcome(m, s, names, i);
      }
    }
  }

  /** The bundle `createCan` builds with `buildProps(tr, undefined)` does
      carry a dispatch function (the flag defaults to `true`); only the
      per-probe override takes it away. */
  lemma CanBundleDefaultsToDispatch(s: CanCommands)
    ensures CanBaseProps(s).dispatch.Some?
    ensures ProbeProps(s).dispatch.None?
    ensures ProbeProps(s) == CanBaseProps(s).(dispatch := None)
  {
  }

  /** `can().chain()` is a chain on the probe's transaction that never
      dispatches on `run()`, whatever its commands do and after however many
      probes; it reports whether every chained command returned `true`. */
  lemma CanChainNeverDispatches(m: Manager, s: CanCommands, probes: seq<string>, names: seq<string>, view: View)
    requires Probeable(m, probes) && Chainable(m, names)
    ensures var s' := ProbeCalls(m, s, probes).can;
      var c := CanChain(m, s');
      && c.tr == s'.tr
      && Run(ChainCommands(m, c, names), view).view == view
      && (Run(ChainCommands(m, c, names), view).ok <==>
            forall i :: 0 <= i < |names| ==> StrictTrue(StepOutcome(m, c, names, i).result))
  {
    var s' := ProbeCalls(m, s, probes).can;
    ChainRunIsConjunction(m, Some(s'.tr), Undefined, names, view);
  }

  /** The probe object after `can().chain()` and its chained calls: the
      chain worked on the probe's own transaction, so the probe continues on
      what the chained commands left. */
  function ProbeAfterCanChain(m: Manager, s: CanCommands, names: seq<string>): (r: CanCommands)
    requires Chainable(m, names)
    ensures r.base == s.base
    ensures names == [] ==> r == s
    ensures names != [] ==> r.tr == StepOutcome(m, CanChain(m, s), names, |names| - 1).tr
  {
    CallbacksAreStepResults(m, CanChain(m, s), names);
    CanCommands(s.base, ChainCommands(m, CanChain(m, s), names).tr)
  }

  /** A probe made after `can().chain()...` sees the chained commands'
      edits: its bundle's transaction and state view are what the last
      chained command left. */
  lemma LaterProbeSeesCanChainEdits(m: Manager, s: CanCommands, names: seq<string>, name: string)
    requires Chainable(m, names) && names != [] && name in m.commands && name != ChainKey
    ensures var t := StepOutcome(m, CanChain(m, s), names, |names| - 1).tr;
      var p := ProbeProps(ProbeAfterCanChain(m, s, names));
      p.tr == t && p.state == ChainableState(s.base, t) && p.dispatch == None
  {
  }

  /** As written, every command chained through `can().chain()` receives a
      bundle WITH a dispatch function, so a command that checks
      `if (dispatch)` before editing does edit the probe's transaction. */
  lemma CanChainOffersDispatch(m: Manager, s: CanCommands, names: seq<string>)
    requires Chainable(m, names)
    ensures forall i :: 0 <= i < |names| ==> StepProps(m, CanChain(m, s), names, i).dispatch.Some?
  {
  }

  /** `can().chain()` as evidently intended: `createChain(tr, false)`. */
  function CanChainIntended(m: Manager, s: CanCommands): (c: ChainedCommands)
    ensures c.hasStart && c.tr == s.tr && c.callbacks == []
    ensures !Truthy(c.shouldDispatch) && c.shouldDispatch != Undefined
  {
    CreateChain(m, Some(s.tr), Bool(false))
  }

  /** The intended `can().chain()` gives no chained command a dispatch
      function and never dispatches on `run()`. */
  lemma IntendedCanChainWithholdsDispatch(m: Manager, s: CanCommands, names: seq<string>, view: View)
    requires Chainable(m, names)
    ensures forall i :: 0 <= i < |names| ==> StepProps(m, CanChainIntended(m, s), names, i).dispatch == None
    ensures Run(ChainCommands(m, CanChainIntended(m, s), names), view).view == view
  {
  }

  /** One level of re-entry. A command holding the bundle of
      `buildProps(tr, flag)` that has edited its transaction into `t` (with
      `t == p.tr` when it has not edited it) and then calls `props.chain()`
      gets a chain that starts on `t`, with every edit in place, and whose `run()` never dispatches. `props.can()` probes `t`,
      with the state's stored marks copied onto it again. */
  lemma PropsReentryStaysOnTransaction(m: Manager, tr: Transaction, flag: Value, t: Transaction, names: seq<string>, view: View)
    requires Chainable(m, names)
    ensures var p := BuildProps(m, tr, flag);
      var c := PropsChain(m, Edited(p, t));
      && c.tr == t
      && Run(ChainCommands(m, c, names), view).view == view
      && PropsCan(m, Edited(p, t)).tr == CopyStoredMarks(State(m), t)
    ensures var p := BuildProps(m, tr, flag);
      PropsChain(m, Edited(p, p.tr)).tr == p.tr && PropsCan(m, Edited(p, p.tr)).tr == p.tr
  {
  }
}

=== FILE: prosemirror.dfy ===
/** The collaborators of the command layer, reduced to what it touches: an
    editor state, a transaction with a meta map and optional stored marks,
    and a view that records every transaction dispatched to it. */
module ProseMirror {
  import opened Js

  /** One document change; its content is irrelevant to the command layer. */
  datatype Step = Step(id: nat)

  /** A formatting mark (bold, italic, ...). */
  datatype Mark = Mark(name: string)

  /** An in-progress transaction: its steps, its metadata and its stored
      marks (`null` is `None`; an empty array is `Some([])` and is truthy). */
  datatype Transaction = Transaction(
    steps: seq<Step>,
    meta: map<string, Value>,
    storedMarks: Option<seq<Mark>>)

  /** An editor state: the document (as the steps applied so far) and the
      marks pending for the next typed character. */
  datatype EditorState = EditorState(doc: seq<Step>, storedMarks: Option<seq<Mark>>)

  /** The view, seen only through `dispatch`: the log of transactions it was
      handed, oldest first. */
  type View = seq<Transaction>

  /** The meta key a command sets to stop the wrapper from dispatching. */
  const PreventDispatchKey: string := "preventDispatch"

  /** `state.tr`: a fresh transaction with no steps and no metadata; like
      the library's constructor, it starts with the state's stored marks. */
  function NewTransaction(s: EditorState): (tr: Transaction)
    ensures tr.steps == [] && tr.meta == map[] && tr.storedMarks == s.storedMarks
  {
    Transaction([], map[], s.storedMarks)
  }

  /** `tr.getMeta(key)`: `undefined` when the key was never set. */
  function GetMeta(tr: Transaction, key: string): (v: Value)
    ensures key !in tr.meta ==> v == Undefined
    ensures key in tr.meta ==> v == tr.meta[key]
  {
    if key in tr.meta then tr.meta[key] else Undefined
  }

  /** `tr.setMeta(key, v)`. */
  function SetMeta(tr: Transaction, key: string, v: Value): (r: Transaction)
    ensures GetMeta(r, key) == v
    ensures forall k :: k != key ==> GetMeta(r, k) == GetMeta(tr, k)
    ensures r.steps == tr.steps && r.storedMarks == tr.storedMarks
  {
    tr.(meta := tr.meta[key := v])
  }

  /** `tr.setStoredMarks(marks)`: replaces the stored marks and nothing else. */
  function SetStoredMarks(tr: Transaction, marks: Option<seq<Mark>>): (r: Transaction)
    ensures r.storedMarks == marks
    ensures r.steps == tr.steps && r.meta == tr.meta
  {
    tr.(storedMarks := marks)
  }

  /** `!!tr.getMeta('preventDispatch')`. */
  predicate DispatchPrevented(tr: Transaction) {
    Truthy(GetMeta(tr, PreventDispatchKey))
  }

  /** `view.dispatch(tr)`: the view receives `tr`. */
  function Dispatch(view: View, tr: Transaction): (v: View)
    ensures |v| == |view| + 1 && v[..|view|] == view && v[|view|] == tr
  {
    view + [tr]
  }
}
